=== FILE: README.md ===
# Todo list: a Dafny model of `script.js`

`script.js` keeps its whole state in the DOM: the `<li>` children of
`#taskList`, in order, each with a text node, a checkbox and possibly the
`completed` class; a "tasks" slot in `localStorage` holding
`JSON.stringify` of the list; the counter text; and each row's display
style as `filterTasks` last set it. Every user gesture is an
event handler that edits the list, then usually saves it and refreshes the
counter.

This project models that state as values and each handler as a pure
function, and proves what the page promises about them.

- `wrappers.dfy` (`Wrappers`): `Option` and `Result`.
- `js_string.dfy` (`JsString`): `String.prototype.trim` over ECMAScript's
  WhiteSpace and LineTerminator code points, and `length` counted in UTF-16
  code units. `Trim` is characterised independently of how it is computed:
  the unique trimmed string left after cutting trimmable runs from both ends.
- `task_json.dfy` (`TaskJson`): `JSON.stringify` of an array of
  `{text, completed}` records (the exact output: short escapes, `\u00xx` for
  other control characters) and a `JSON.parse` for that shape that accepts
  every JSON string escape; anything else is a SyntaxError. The round trip
  `Parse(Stringify(ts)) == Success(ts)` is proved.
- `seq_ops.dfy` (`SeqOps`): removal, insertion and the move that
  `insertBefore` performs, with their inverse laws and permutation facts.
- `task_list.dfy` (`TaskList`): rows (`Row(text, checked, completed)`), the
  add, toggle, delete, count, filter and drag-over operations, and what
  `saveTasks`/`loadTasks` write and read.
- `todo_page.dfy` (`TodoPage`): the page (rows, text field, storage slot,
  counter) and one function per event handler. The lemmas state that every
  handler keeps the page consistent (well-formed rows, counter equal to the
  active count, slot equal to what `saveTasks` writes), that reloading a
  consistent page's slot gives back its rows, and worked scenarios.

A handler that throws stops at the throw: effects before it persist and
later ones do not happen. A row's `text` of `""` stands for an `<li>` with
no text node (setting `textContent` to `""` creates none). For such a row,
`childNodes[1]` is the delete button, whose `nodeValue` is `null`, so
`saveTasks` throws.

Where the code behaves differently from what a reader might expect, the model follows the code:

- Positions are closures over the `<li>` in the code, so there is no
  out-of-range error. Handlers on a row take an index that must be in range.
- `JSON.parse(...) || []` falls back to `[]` for an absent slot (`getItem`
  gives `null`) and for any slot whose text parses to a falsy value (`null`,
  `false`, `""`, a zero). The model recognises zero written as `-?0(.0+)?`
  with an optional exponent. A slot that is not JSON makes `JSON.parse`
  throw a SyntaxError, and a truthy value that is not an array makes
  `forEach` throw a TypeError; either way nothing is added. A JSON array of
  another shape does not throw up front: the browser appends a row per
  element (a blank one when `text` is missing) and may throw partway, at the
  first `null` element. The model reads only the stored task layout and
  treats every other text as a `Failure` that leaves the page unchanged.
- Reordering happens on every `dragover`, which moves the dragged `<li>`.
  `dragend` only saves the order it finds; nothing recounts.
- The `taskText === ""` test in `addTask` is subsumed by `length < 3`
  (`TaskList.RejectedIffShort`).
- "Three characters" are UTF-16 code units, so one emoji counts as two.

## Model

| member | source | states |
|---|---|---|
| JsString.IsTrimmable | script.js:19 | the code points `trim` removes; its meaning for `trim` is stated by `TrimCharacterization` |
| JsString.Trim | script.js:19 | the result has no trimmable character at either end and is no longer than the input |
| JsString.TrimStrips | script.js:19 | the result of `trim` is the input with a (possibly empty) run of whitespace/line terminators cut from each end |
| JsString.TrimCharacterization | script.js:19 | `r == trim(s)` if and only if `r` is obtained from `s` by cutting trimmable runs from both ends and has no trimmable end itself |
| JsString.TrimmedIsFixed | script.js:84 | `trim` leaves a string unchanged exactly when its ends are not whitespace |
| JsString.TrimmedKept | script.js:84 | re-trimming an already trimmed text keeps it and its length |
| JsString.TrimIdempotent | script.js:84 | trimming twice is trimming once |
| JsString.StripsUnique | script.js:19 | at most one trimmed string can be cut out of a string by removing trimmable runs from its ends |
| JsString.Utf16Length | script.js:22 | `length` lies between the number of code points and twice that |
| JsString.Utf16LengthBmp | script.js:22 | `length` equals the number of code points if and only if none lies outside the Basic Multilingual Plane |
| TaskJson.Stringify | script.js:88 | `JSON.stringify(tasks)` is an array text, opening with `[` and closing with `]`; `ParseStringify` shows that `Parse` inverts it |
| TaskJson.Parse | script.js:93 | `JSON.parse` of a stored task array succeeds only on a text that opens with `[`; `ParseStringify` shows it inverts `Stringify` |
| TaskJson.LeadingZeros | script.js:93 | the number of `0` characters a text starts with: all of them are zeros and the next character is not |
| TaskJson.IsFalsyJson | script.js:93 | the JSON texts modelled as parsing to a falsy value: `null`, `false`, `""`, and zero written `-?0(.0+)?` with an optional exponent |
| TaskJson.FalsyTextNotArray | script.js:93 | a falsy JSON text never parses as a task array, so the two readings of the slot do not overlap |
| TaskJson.HexRoundTrip | script.js:88 | a hex digit written by `JSON.stringify` reads back as its value |
| TaskJson.ParseEscapedChar | script.js:93 | every code point, as `JSON.stringify` escapes it, is read back by `JSON.parse` as itself, leaving the rest of the input |
| TaskJson.ParseQuotedBody | script.js:93 | the escaped body of a string literal reads back as the original text, up to the closing quote |
| TaskJson.ParseStringifiedTask | script.js:93 | one stringified `{text, completed}` record parses back to the same record |
| TaskJson.ParseStringifiedElements | script.js:93 | a comma-separated run of stringified records parses back to the same records in order |
| TaskJson.ParseStringify | script.js:88-93 | `JSON.parse(JSON.stringify(tasks))` gives back `tasks` for every task array |
| TaskJson.StringifyInjective | script.js:88 | distinct task arrays are stored as distinct strings |
| TaskList.IsRejected | script.js:22 | the `addTask` guard as written; `RejectedIffShort` shows its emptiness test is redundant |
| TaskList.RejectedIffShort | script.js:22 | the guard "empty or shorter than 3" holds exactly when the length is below 3 |
| TaskList.Add | script.js:18-60 | rejected exactly when the trimmed input is shorter than 3 code units; otherwise exactly one row is appended at the end, holding the trimmed text and not completed, with every earlier row unchanged |
| TaskList.AddWellFormed | script.js:19-34 | an accepted add keeps every row trimmed, at least 3 code units long and with its checkbox agreeing with its class |
| TaskList.AddCount | script.js:60-64 | an accepted add raises the active count by exactly one; rejection happens exactly for short input |
| TaskList.Toggle | script.js:40-42 | a checkbox change flips that row's `checked`, sets its class to match, and changes no other row and not its text |
| TaskList.ToggleFlips | script.js:104-106 | on an in-sync row the change flips `completed` and keeps every row well formed |
| TaskList.ToggleTwice | script.js:40-42 | two changes of the same checkbox restore the list |
| TaskList.ActiveCount | script.js:75 | the count of rows without `completed` is at most the number of rows, and equals it exactly when no row is completed |
| TaskList.ActiveCountConcat | script.js:75 | the active count of two lists joined is the sum of their counts |
| TaskList.ToggleCount | script.js:40-43 | completing a row lowers the count by one; un-completing it raises it by one |
| TaskList.RemoveCount | script.js:51-54 | deleting a row lowers the count by one exactly when that row was active |
| TaskList.RemoveWellFormed | script.js:114-116 | deleting keeps the remaining rows well formed |
| SeqOps.Remove | script.js:52 | `li.remove()` leaves n-1 rows: those before the position unchanged, those after shifted down by one |
| SeqOps.Insert | script.js:168 | `insertBefore` puts the element at the position and shifts the rest up, keeping their order |
| SeqOps.RemoveInsert | script.js:168 | removing what was just inserted at a position gives back the original |
| SeqOps.InsertRemove | script.js:168 | re-inserting the removed element at its position gives back the original |
| SeqOps.Move | script.js:168 | the moved element ends at the target index, and removing it there leaves the same list as removing it at its source |
| SeqOps.MovePermutes | script.js:168 | moving an element is a permutation |
| TaskList.Visibility | script.js:132-139 | the display one row gets under a filter value; `FilterTasks` states when it is "flex" |
| TaskList.FilterTasks | script.js:129-141 | a row is displayed if and only if the mode is "all", or "active" and the row is not completed, or "completed" and it is |
| TaskList.ActiveShownCount | script.js:134-135 | the counter equals the number of rows the "active" filter displays |
| TaskList.ActiveCompletedSplit | script.js:134-137 | the numbers of rows the "active" and "completed" filters display add up to the number of rows |
| TaskList.AllShowsEverything | script.js:132-133 | the "all" filter displays every row, in order |
| TaskList.OtherShowsNothing | script.js:138-139 | any other filter value hides every row |
| TaskList.PointerAbove | script.js:167 | the midpoint test with both sides doubled; `PointerAboveMidpoint` shows it equals the comparison with `offsetTop + offsetHeight / 2` |
| TaskList.PointerAboveMidpoint | script.js:167 | the doubled integer test holds exactly when the pointer is above the exact midpoint `offsetTop + offsetHeight / 2` |
| TaskList.AnchorFrom | script.js:167 | the anchor is the first non-dragged row, in order, whose midpoint is strictly below the pointer; none when there is no such row |
| TaskList.Anchor | script.js:167 | the `find` over rows that are not dragged: the first one, in order, whose midpoint is strictly below the pointer, or none when there is no such row |
| TaskList.DropIndex | script.js:168 | the dragged row's index after `insertBefore` is a valid index |
| TaskList.DragOver | script.js:164-168 | the reorder is a permutation; the dragged row sits at the drop index and the other rows keep their relative order |
| TaskList.DragOverIsReinsert | script.js:168 | the reorder equals the dragged row removed and re-inserted at the drop index |
| TaskList.DragOverPlacement | script.js:167-168 | the dragged row lands directly before the anchor, or last when there is no anchor |
| TaskList.DragOverKeeps | script.js:164-168 | reordering changes neither the active count nor the well-formedness of the rows |
| TaskList.DragOnlyRow | script.js:168 | dragging the only row leaves the list unchanged |
| TaskList.Snapshot | script.js:80-87 | `saveTasks` collects one record per row, in order, with the trimmed text and the `completed` class, and throws exactly when some row has no text node |
| TaskList.SavedTask | script.js:83-86 | the record for one row has trimmed text and the row's `completed` class; a row whose text is already trimmed keeps it |
| TaskList.SaveTasks | script.js:80-89 | `saveTasks` writes an array text, and throws exactly when some row has no text node; `SaveThenLoad` gives the round trip |
| TaskList.LoadSlot | script.js:93 | an absent slot and a falsy JSON text give `[]`; a text that parses as a task array gives that array; it fails exactly when the text is not falsy and does not parse |
| TaskList.SnapshotWellFormed | script.js:82-87 | well-formed rows are collected without a throw and exactly as they are |
| TaskList.SavedSlotReloads | script.js:88-93 | for well-formed rows the slot holds their stringified records and reads back as those records |
| TaskList.SaveThenLoad | script.js:80-102 | loading what was saved gives the same rows in the same order with trimmed text and checkbox set from the class; well-formed rows come back unchanged |
| TaskList.RowOf | script.js:95-102 | a loaded row carries the record's text and flag, with its checkbox agreeing with its class |
| TaskList.RowsOfTasksOf | script.js:94-102 | rows whose checkbox agrees with their class are exactly the rows their records load as |
| TaskList.LoadedRowsInSync | script.js:99-102 | loaded rows always have checkbox and class in agreement, and their records are the stored ones |
| TodoPage.ConsistentReloads | script.js:88-93 | on a consistent page the slot reads back as the page's records |
| TodoPage.SaveAndCount | script.js:63-64 | after `saveTasks(); updateCounter();` the slot and counter reflect the rows, or stay as they were when saving throws |
| TodoPage.SaveAndCountConsistent | script.js:63-64 | for well-formed rows, saving and counting always succeeds and leaves the page consistent |
| TodoPage.OnAdd | script.js:18-67 | short input leaves the page unchanged. Otherwise the trimmed text is appended as an unchecked row after the existing ones. If saving succeeds, the slot and counter follow the rows and the field is cleared; if it throws, slot, counter and field stay as they were |
| TodoPage.AddKeepsConsistent | script.js:18-67 | adding keeps the page consistent; a successful add raises the counter by one and clears the text field |
| TodoPage.OnCheckboxChange | script.js:40-44 | a checkbox change alters only that row, flipping its checkbox, setting its `completed` class to the new checkbox state and keeping its text. The text field is untouched; the slot and counter follow the rows unless saving throws, in which case both stay as they were |
| TodoPage.CheckboxKeepsConsistent | script.js:104-108 | a checkbox change keeps the page consistent, flips `completed`, and a second change restores the rows |
| TodoPage.OnDelete | script.js:51-55 | a delete leaves exactly the other rows, in order. The text field is untouched; the slot and counter follow the rows unless saving throws, in which case both stay as they were |
| TodoPage.DeleteKeepsConsistent | script.js:114-118 | a delete keeps the page consistent and lowers the counter exactly when the row was active |
| TodoPage.OnDragOver | script.js:164-169 | `dragover` permutes the rows. The dragged row lands at the drop index and the other rows keep their relative order. Slot, counter and text field are untouched |
| TodoPage.OnDragEnd | script.js:158-161 | `dragend` saves the current order, or leaves the slot as it was when saving throws; it changes no row, nor the counter or text field |
| TodoPage.DragEndSaves | script.js:158-161 | after `dragend` the slot reads back as the current rows in their current order |
| TodoPage.DragKeepsConsistent | script.js:158-169 | a drag keeps rows well formed and the counter right, and after `dragend` the page is consistent |
| TodoPage.OnLoad | script.js:92-126 | a slot the model does not read as a task array is a failure that leaves the page unchanged; otherwise one in-sync row per stored record is appended and the counter is refreshed |
| TodoPage.ReloadRestores | script.js:92-126 | a fresh page loading a consistent page's slot shows exactly that page's rows and is consistent |
| TodoPage.ReloadRows | script.js:93-123 | a fresh page loading a consistent page's slot shows exactly that page's rows |
| TodoPage.EmptySlotLoadsEmpty | script.js:93 | an absent slot loads as an empty list |
| TodoPage.FalsySlotLoadsEmpty | script.js:93-125 | a slot holding a falsy JSON text loads as an empty list, and the counter is refreshed to zero |
| TodoPage.EmptyRecordLoadsBlankRow | script.js:94-96 | a stored record with empty text loads as a row that makes `saveTasks` throw |
| TodoPage.BlankRowStopsSaving | script.js:40-43 | with a row that has no text node on the page, a checkbox change updates its row, but `saveTasks` throws, so the slot and the counter stay as they were |
| TodoPage.BlankPageConsistent | script.js:11-15 | a page with no rows and nothing stored is consistent |
| TodoPage.AddTickDeleteScenario | script.js:18-55 | adding a task, ticking it and deleting it moves the counter 1 then 0, the filters show it under "completed" only, and the slot ends as `[]` |
| TodoPage.DragScenario | script.js:164-168 | dragging the third of three rows above the first row's midpoint puts it first, and `dragend` stores the new order |
| SeqOps.MoveLastToFirst | script.js:168 | moving the last of three elements to the front gives the expected order |

## Left out

- `toggleVisibility` (script.js:145-147): it only flips the list's display style and does not touch the rows.
- Registering listeners: `window.onload`, `enableDragAndDrop`, and the extra `dragover` listener each `addTask` adds. They are wiring, and every extra `dragover` listener repeats the same reorder.
- The error message text, the `invalid` class, the delete button's styling and the counter's text format: presentation only. A rejection is a `Failure(TooShort)` value.
- The `dragging` class. The dragged row is given as an index; a `dragover` with no dragged row throws in the code and is not modelled.
- Layout: `offsetTop`, `offsetHeight` and `clientY` are integer parameters. The midpoint test is doubled so that it stays in integers.
- TaskJson.IsFalsyJson: numbers that are not written as zero but round to zero as a double (`1e-400`, `-2e-324`) are falsy for `JSON.parse`, so such a slot loads as `[]`; the model treats them as failures, because it does not model decimal-to-double rounding.
- TaskList.LoadSlot: a JSON array that is not in the stored task layout (`[1]`, `[{"text":"abc"}]`, `[{"text":"a","completed":false},null]`) is a failure in the model, so `OnLoad` leaves the page unchanged. The browser appends a row for each element (blank when `text` is missing) and throws only at an element it cannot read, keeping the rows added before it.
- TaskList.FilterTasks: the display values are a snapshot taken when the filter changes. Rows added or toggled later are not filtered again, so they keep their old display (or show, when new). `Page` does not keep display values; the model derives visibility from the current rows.
- `JSON.parse` of a falsy value written with surrounding whitespace (` null `) is a failure in the model; `JSON.parse` accepts it and the slot would load as `[]`.
- `JSON.parse` of anything `JSON.stringify` does not produce for this shape is a SyntaxError in the model. That covers insignificant whitespace, other key orders, extra keys, non-boolean `completed` values and surrogate pairs written as `\u` escapes, all of which real `JSON.parse` accepts.
- Strings are sequences of Unicode scalar values. A JavaScript string can also hold a lone surrogate, which counts as 1 in `length`, survives `trim` and is written by `JSON.stringify` as `\udxxx`. The model cannot represent lone surrogates, so they are out of scope.
- The initial contents of `index.html`: a page starts with no rows.
- `localStorage` quota errors and other browser failures: the slot is a value.
- JsString.Utf16Length: bounded between the number of code points and twice that, and tied to the BMP by `Utf16LengthBmp`, rather than given in closed form.

=== FILE: js_string.dfy ===
/**
  The two JavaScript string operations the task list depends on:
  `String.prototype.trim` and the `length` property, which counts UTF-16
  code units rather than code points.
 */
module JsString {

  /** The code points `trim` removes: ECMAScript's WhiteSpace set (TAB, VT,
      FF, SPACE, NO-BREAK SPACE, ZERO WIDTH NO-BREAK SPACE and the other
      members of category Zs) and its LineTerminator set (LF, CR, LINE
      SEPARATOR, PARAGRAPH SEPARATOR). */
  predicate IsTrimmable(c: char) {
    var n := c as int;
    || n == 0x09 || n == 0x0A || n == 0x0B || n == 0x0C || n == 0x0D
    || n == 0x20 || n == 0xA0 || n == 0x1680
    || (0x2000 <= n <= 0x200A)
    || n == 0x2028 || n == 0x2029 || n == 0x202F || n == 0x205F
    || n == 0x3000 || n == 0xFEFF
  }

  predicate AllTrimmable(s: string) {
    forall i :: 0 <= i < |s| ==> IsTrimmable(s[i])
  }

  /** Neither end of `s` is a character `trim` would remove. */
  predicate IsTrimmed(s: string) {
    |s| == 0 || (!IsTrimmable(s[0]) && !IsTrimmable(s[|s| - 1]))
  }

  /** `r` is `s` with a run of trimmable characters cut from each end. */
  ghost predicate Strips(s: string, r: string) {
    exists i :: StripsAt(s, r, i)
  }

  /** `r` sits at offset `i` of `s` with only trimmable characters around it. */
  ghost predicate StripsAt(s: string, r: string, i: int) {
    0 <= i <= |s| - |r| && s[i..i + |r|] == r && AllTrimmable(s[..i]) && AllTrimmable(s[i + |r|..])
  }

  /** `trim`: cuts trimmable characters from the front and from the back
      until neither end is one. */
  function Trim(s: string): (r: string)
    ensures IsTrimmed(r) && |r| <= |s|
  {
    if |s| > 0 && IsTrimmable(s[0]) then Trim(s[1..])
    else if |s| > 0 && IsTrimmable(s[|s| - 1]) then Trim(s[..|s| - 1])
    else s
  }

  /** What `trim` returns is what is left of `s` once runs of trimmable
      characters are cut from its ends. */
  lemma {:induction false} TrimStrips(s: string)
    ensures Strips(s, Trim(s))
    decreases |s|
  {
    var r := Trim(s);
    if |s| > 0 && IsTrimmable(s[0]) {
      TrimStrips(s[1..]);
      var i :| StripsAt(s[1..], r, i);
      StripsFront(s, r, i);
    } else if |s| > 0 && IsTrimmable(s[|s| - 1]) {
      TrimStrips(s[..|s| - 1]);
      var i :| StripsAt(s[..|s| - 1], r, i);
      StripsBack(s, r, i);
    } else {
      assert s[0..0 + |s|] == s;
      assert s[..0] == [] && s[0 + |s|..] == [];
      assert StripsAt(s, s, 0);
    }
  }

  /** One more trimmable character in front moves the kept part right by one. */
  lemma StripsFront(s: string, r: string, i: int)
    requires |s| > 0 && IsTrimmable(s[0]) && StripsAt(s[1..], r, i)
    ensures StripsAt(s, r, i + 1)
  {
    var t := s[1..];
    assert s[i + 1..i + 1 + |r|] == t[i..i + |r|];
    var front, rest := s[..i + 1], t[..i];
    forall k | 0 < k < |front|
      ensures IsTrimmable(front[k])
    {
      assert front[k] == rest[k - 1];
    }
    assert s[i + 1 + |r|..] == t[i + |r|..];
  }

  /** One more trimmable character behind leaves the kept part where it was. */
  lemma StripsBack(s: string, r: string, i: int)
    requires |s| > 0 && IsTrimmable(s[|s| - 1]) && StripsAt(s[..|s| - 1], r, i)
    ensures StripsAt(s, r, i)
  {
    var t := s[..|s| - 1];
    assert s[i..i + |r|] == t[i..i + |r|];
    assert s[..i] == t[..i];
    var back, rest := s[i + |r|..], t[i + |r|..];
    forall k | 0 <= k < |rest|
      ensures IsTrimmable(back[k])
    {
      assert back[k] == rest[k];
    }
  }

  /** A string is fixed by `trim` exactly when it is already trimmed. */
  lemma TrimmedIsFixed(s: string)
    ensures Trim(s) == s <==> IsTrimmed(s)
  {
    if IsTrimmed(s) {
      assert s[0..0 + |s|] == s;
      assert s[..0] == [] && s[0 + |s|..] == [];
      assert StripsAt(s, s, 0);
      TrimStrips(s);
      StripsUnique(s, s, Trim(s));
    }
  }

  /** A trimmed string passes through `trim` with its length unchanged. */
  lemma TrimmedKept(s: string)
    requires IsTrimmed(s)
    ensures Trim(s) == s && Utf16Length(Trim(s)) == Utf16Length(s)
  {
    TrimmedIsFixed(s);
  }

  /** `trim` is idempotent. */
  lemma TrimIdempotent(s: string)
    ensures Trim(Trim(s)) == Trim(s)
  {
    TrimmedIsFixed(Trim(s));
  }

  /** Only one trimmed string can be obtained from `s` by cutting trimmable
      runs from its ends. */
  lemma StripsUnique(s: string, r1: string, r2: string)
    requires Strips(s, r1) && IsTrimmed(r1)
    requires Strips(s, r2) && IsTrimmed(r2)
    ensures r1 == r2
  {
    var i1 :| StripsAt(s, r1, i1);
    var i2 :| StripsAt(s, r2, i2);
    if |r1| > 0 && |r2| > 0 {
      StartsAgree(s, r1, i1, i2);
      StartsAgree(s, r2, i2, i1);
      EndsAgree(s, r1, i1, i2 + |r2|);
      EndsAgree(s, r2, i2, i1 + |r1|);
    } else if |r1| > 0 {
      NonEmptyNotAllTrimmable(s, r1, i1, i2);
    } else if |r2| > 0 {
      NonEmptyNotAllTrimmable(s, r2, i2, i1);
    }
  }

  lemma StartsAgree(s: string, r: string, i: nat, j: nat)
    requires 0 < |r| && i + |r| <= |s| && s[i..i + |r|] == r && !IsTrimmable(r[0])
    requires j <= |s| && AllTrimmable(s[..j])
    ensures i >= j
  {
  }

  lemma EndsAgree(s: string, r: string, i: nat, j: nat)
    requires 0 < |r| && i + |r| <= |s| && s[i..i + |r|] == r && !IsTrimmable(r[|r| - 1])
    requires j <= |s| && AllTrimmable(s[j..])
    ensures i + |r| <= j
  {
  }

  /** A non-empty trimmed infix cannot sit inside a stretch that is all trimmable. */
  lemma NonEmptyNotAllTrimmable(s: string, r: string, i: nat, k: nat)
    requires 0 < |r| && i + |r| <= |s| && s[i..i + |r|] == r && !IsTrimmable(r[0])
    requires k <= |s|
    ensures !(AllTrimmable(s[..k]) && AllTrimmable(s[k..]))
  {
    if i < k {
      assert s[..k][i] == r[0];
    } else {
      assert s[k..][i - k] == r[0];
    }
  }

  /** `trim` is characterised without reference to how it is computed: its
      result is the one trimmed string reachable from `s` by cutting
      trimmable runs from the ends. */
  lemma TrimCharacterization(s: string, r: string)
    ensures r == Trim(s) <==> Strips(s, r) && IsTrimmed(r)
  {
    TrimStrips(s);
    if Strips(s, r) && IsTrimmed(r) {
      StripsUnique(s, r, Trim(s));
    }
  }

  /** UTF-16 code units of one code point: two above the Basic Multilingual Plane. */
  function CodeUnits(c: char): nat {
    if c as int >= 0x10000 then 2 else 1
  }

  /** The `length` of a JavaScript string. */
  function Utf16Length(s: string): (n: nat)
    ensures |s| <= n <= 2 * |s|
  {
    if |s| == 0 then 0 else CodeUnits(s[0]) + Utf16Length(s[1..])
  }

  /** `length` counts characters exactly when none lies outside the Basic
      Multilingual Plane; each one that does counts twice. */
  lemma {:induction false} Utf16LengthBmp(s: string)
    ensures Utf16Length(s) == |s| <==> forall i :: 0 <= i < |s| ==> s[i] as int < 0x10000
    decreases |s|
  {
    if |s| > 0 {
      Utf16LengthBmp(s[1..]);
      assert forall i :: 1 <= i < |s| ==> s[i] == s[1..][i - 1];
    }
  }
}

=== FILE: seq_ops.dfy ===
/**
  Positional edits on an ordered sequence: what `li.remove()` and
  `insertBefore` do to the children of a list element.
 */
module SeqOps {

  /** The sequence with the element at `p` taken out; later elements shift down. */
  function Remove<T>(s: seq<T>, p: nat): (r: seq<T>)
    requires p < |s|
    ensures |r| == |s| - 1
    ensures forall i :: 0 <= i < p ==> r[i] == s[i]
    ensures forall i :: p <= i < |r| ==> r[i] == s[i + 1]
  {
    s[..p] + s[p + 1..]
  }

  lemma RemoveMultiset<T>(s: seq<T>, p: nat)
    requires p < |s|
    ensures multiset(Remove(s, p)) + multiset{s[p]} == multiset(s)
  {
    assert s == s[..p] + [s[p]] + s[p + 1..];
  }

  /** The sequence with `x` placed at position `p`; elements from `p` on shift up. */
  function Insert<T>(s: seq<T>, p: nat, x: T): (r: seq<T>)
    requires p <= |s|
    ensures |r| == |s| + 1 && r[p] == x
    ensures forall i :: 0 <= i < p ==> r[i] == s[i]
    ensures forall i :: p < i < |r| ==> r[i] == s[i - 1]
  {
    s[..p] + [x] + s[p..]
  }

  lemma InsertMultiset<T>(s: seq<T>, p: nat, x: T)
    requires p <= |s|
    ensures multiset(Insert(s, p, x)) == multiset(s) + multiset{x}
  {
    assert s == s[..p] + s[p..];
  }

  /** Inserting at `p` and then removing at `p` gives back the original. */
  lemma RemoveInsert<T>(s: seq<T>, p: nat, x: T)
    requires p <= |s|
    ensures Remove(Insert(s, p, x), p) == s
  {
  }

  /** Taking out the element at `p` and putting it back at `p` gives back the
      original: a sequence is determined by one element and the rest. */
  lemma InsertRemove<T>(s: seq<T>, p: nat)
    requires p < |s|
    ensures Insert(Remove(s, p), p, s[p]) == s
  {
    var r := Insert(Remove(s, p), p, s[p]);
    forall i | 0 <= i < |s|
      ensures r[i] == s[i]
    {
    }
  }

  /** The element at `from` taken out and put back so that it ends at `to`
      (an index of the result); everything else keeps its relative order. */
  function Move<T>(s: seq<T>, from: nat, to: nat): (r: seq<T>)
    requires from < |s| && to < |s|
    ensures |r| == |s| && r[to] == s[from]
    ensures Remove(r, to) == Remove(s, from)
  {
    var r := Insert(Remove(s, from), to, s[from]);
    RemoveInsert(Remove(s, from), to, s[from]);
    r
  }

  /** A move is a permutation. */
  lemma MovePermutes<T>(s: seq<T>, from: nat, to: nat)
    requires from < |s| && to < |s|
    ensures multiset(Move(s, from, to)) == multiset(s)
  {
    RemoveMultiset(s, from);
    InsertMultiset(Remove(s, from), to, s[from]);
  }

  /** Moving an element to the front puts it before all the others. */
  lemma MoveToFront<T>(s: seq<T>, from: nat)
    requires from < |s|
    ensures Move(s, from, 0) == [s[from]] + Remove(s, from)
  {
  }

  /** Moving an element to the last index puts it after all the others. */
  lemma MoveToBack<T>(s: seq<T>, from: nat)
    requires from < |s|
    ensures Move(s, from, |s| - 1) == Remove(s, from) + [s[from]]
  {
  }

  /** Moving the first of three elements to the end. */
  lemma MoveFirstToLast<T>(a: T, b: T, c: T)
    ensures Move([a, b, c], 0, 2) == [b, c, a]
  {
    MoveToBack([a, b, c], 0);
    assert Remove([a, b, c], 0) == [b, c];
  }

  /** Moving the last of three elements to the front. */
  lemma MoveLastToFirst<T>(a: T, b: T, c: T)
    ensures Move([a, b, c], 2, 0) == [c, a, b]
  {
    MoveToFront([a, b, c], 2);
    assert Remove([a, b, c], 2) == [a, b];
  }
}

=== FILE: task_json.dfy ===
/**
  The persisted form of the task list: `JSON.stringify` applied to an array
  of `{text, completed}` objects, and the `JSON.parse` that reads it back.
  The parser accepts exactly the layout `JSON.stringify` produces for that
  shape (no insignificant whitespace, keys in the order text, completed),
  with every escape JSON allows inside a string; anything else is a
  SyntaxError, which is what `JSON.parse` throws.
 */
module TaskJson {
  import opened Wrappers

  /** One persisted task record. */
  datatype Task = Task(text: string, completed: bool)

  /** Why reading the slot failed: the text is not in the stored task
      layout. In the browser this covers a SyntaxError from `JSON.parse`, a
      TypeError at `forEach` for a truthy value that is not an array, and
      arrays of another shape, which load rows and may throw partway. */
  datatype ParseError = SyntaxError

  /* ---------- Stringify ---------- */

  function HexDigit(n: nat): char
    requires n < 16
  {
    "0123456789abcdef"[n]
  }

  /** How `JSON.stringify` writes one code point inside a string literal:
      the seven short escapes, `\u00xx` in lower-case hex for the other
      control characters, and the character itself otherwise. */
  function EscapeChar(c: char): string {
    if c == '"' then ['\\', '"']
    else if c == '\\' then ['\\', '\\']
    else if c as int == 0x08 then ['\\', 'b']
    else if c as int == 0x0C then ['\\', 'f']
    else if c == '\n' then ['\\', 'n']
    else if c == '\r' then ['\\', 'r']
    else if c == '\t' then ['\\', 't']
    else if c as int < 0x20 then ['\\', 'u', '0', '0', HexDigit(c as int / 16), HexDigit(c as int % 16)]
    else [c]
  }

  function EscapeAll(s: string): string {
    if |s| == 0 then [] else EscapeChar(s[0]) + EscapeAll(s[1..])
  }

  function Quote(s: string): string {
    ['"'] + EscapeAll(s) + ['"']
  }

  function StringifyTask(t: Task): string {
    "{\"text\":" + Quote(t.text) + ",\"completed\":" + (if t.completed then "true" else "false") + "}"
  }

  function StringifyElements(ts: seq<Task>): string
    requires |ts| > 0
  {
    if |ts| == 1 then StringifyTask(ts[0])
    else StringifyTask(ts[0]) + "," + StringifyElements(ts[1..])
  }

  /** `JSON.stringify(tasks)`. */
  function Stringify(ts: seq<Task>): (r: string)
    ensures |r| >= 2 && r[0] == '[' && r[|r| - 1] == ']'
  {
    "[" + (if |ts| == 0 then "" else StringifyElements(ts)) + "]"
  }

  /* ---------- Parse ---------- */

  function HexValue(c: char): (r: Option<nat>)
    ensures r.Some? ==> r.value < 16
  {
    if '0' <= c <= '9' then Some(c as int - '0' as int)
    else if 'a' <= c <= 'f' then Some(c as int - 'a' as int + 10)
    else if 'A' <= c <= 'F' then Some(c as int - 'A' as int + 10)
    else None
  }

  /** One character of a string body, escaped or literal, and the text after it. */
  function ParseCharToken(s: string): (r: Option<(char, string)>)
    requires |s| > 0 && s[0] != '"'
    ensures r.Some? ==> |r.value.1| < |s|
  {
    if s[0] == '\\' then
      if |s| < 2 then None
      else
        var e := s[1];
        if e == '"' || e == '\\' || e == '/' then Some((e, s[2..]))
        else if e == 'b' then Some((0x08 as char, s[2..]))
        else if e == 'f' then Some((0x0C as char, s[2..]))
        else if e == 'n' then Some(('\n', s[2..]))
        else if e == 'r' then Some(('\r', s[2..]))
        else if e == 't' then Some(('\t', s[2..]))
        else if e == 'u' && |s| >= 6 then
          var a :- HexValue(s[2]);
          var b :- HexValue(s[3]);
          var c :- HexValue(s[4]);
          var d :- HexValue(s[5]);
          var v := a * 4096 + b * 256 + c * 16 + d;
          if 0xD800 <= v < 0xE000 then None else Some((v as char, s[6..]))
        else None
    else if s[0] as int < 0x20 then None
    else Some((s[0], s[1..]))
  }

  /** The body of a string literal up to and including its closing quote. */
  function ParseChars(s: string): (r: Option<(string, string)>)
    ensures r.Some? ==> |r.value.1| < |s|
    decreases |s|
  {
    if |s| == 0 then None
    else if s[0] == '"' then Some(([], s[1..]))
    else
      var first :- ParseCharToken(s);
      var more :- ParseChars(first.1);
      Some(([first.0] + more.0, more.1))
  }

  function ParseString(s: string): (r: Option<(string, string)>)
    ensures r.Some? ==> |r.value.1| < |s|
  {
    if |s| > 0 && s[0] == '"' then ParseChars(s[1..]) else None
  }

  /** The text after the literal `lit`, if `s` starts with it. */
  function Expect(lit: string, s: string): (r: Option<string>)
    ensures r.Some? ==> s == lit + r.value
  {
    if lit <= s then
      assert s == lit + s[|lit|..];
      Some(s[|lit|..])
    else None
  }

  function ParseBool(s: string): (r: Option<(bool, string)>)
    ensures r.Some? ==> |r.value.1| < |s|
  {
    if "true" <= s then Some((true, s[4..]))
    else if "false" <= s then Some((false, s[5..]))
    else None
  }

  function ParseTask(s: string): (r: Option<(Task, string)>)
    ensures r.Some? ==> |r.value.1| < |s|
  {
    var s1 :- Expect("{\"text\":", s);
    var text :- ParseString(s1);
    var s3 :- Expect(",\"completed\":", text.1);
    var done :- ParseBool(s3);
    var s5 :- Expect("}", done.1);
    Some((Task(text.0, done.0), s5))
  }

  /** One or more comma-separated records and the closing bracket. */
  function ParseElements(s: string): (r: Option<(seq<Task>, string)>)
    ensures r.Some? ==> |r.value.1| < |s|
    decreases |s|
  {
    var first :- ParseTask(s);
    var rest := first.1;
    if |rest| > 0 && rest[0] == ',' then
      var more :- ParseElements(rest[1..]);
      Some(([first.0] + more.0, more.1))
    else if |rest| > 0 && rest[0] == ']' then
      Some(([first.0], rest[1..]))
    else None
  }

  function ParseArray(s: string): (r: Option<(seq<Task>, string)>)
    ensures r.Some? ==> |s| > 0 && s[0] == '['
  {
    var s1 :- Expect("[", s);
    if |s1| > 0 && s1[0] == ']' then Some(([], s1[1..])) else ParseElements(s1)
  }

  /** `JSON.parse(text)` for a stored task array. */
  function Parse(s: string): (r: Result<seq<Task>, ParseError>)
    ensures r.Success? ==> |s| > 0 && s[0] == '['
  {
    match ParseArray(s)
    case Some((ts, rest)) => if rest == [] then Success(ts) else Failure(SyntaxError)
    case None => Failure(SyntaxError)
  }

  /* ---------- Falsy texts ---------- */

  predicate IsDigit(c: char) {
    '0' <= c <= '9'
  }

  predicate AllDigits(s: string) {
    forall i :: 0 <= i < |s| ==> IsDigit(s[i])
  }

  predicate AllZeros(s: string) {
    forall i :: 0 <= i < |s| ==> s[i] == '0'
  }

  /** How many `0` characters `s` starts with. */
  function LeadingZeros(s: string): (n: nat)
    ensures n <= |s| && AllZeros(s[..n])
    ensures n == |s| || s[n] != '0'
  {
    if |s| > 0 && s[0] == '0' then
      var n := 1 + LeadingZeros(s[1..]);
      assert forall i :: 1 <= i < n ==> s[..n][i] == s[1..][..n - 1][i - 1];
      n
    else 0
  }

  /** The exponent part of a JSON number, `[eE][+-]?[0-9]+`, or nothing. */
  predicate IsExponentOrEmpty(s: string) {
    || |s| == 0
    || ((s[0] == 'e' || s[0] == 'E') &&
        var digits := if |s| > 1 && (s[1] == '+' || s[1] == '-') then s[2..] else s[1..];
        |digits| > 0 && AllDigits(digits))
  }

  /** What may follow the integer part `0` of a JSON number whose value is
      zero: an optional fraction of zeros, then an optional exponent. */
  predicate IsZeroTail(s: string) {
    if |s| > 0 && s[0] == '.' then
      var n := LeadingZeros(s[1..]);
      n > 0 && IsExponentOrEmpty(s[1..][n..])
    else IsExponentOrEmpty(s)
  }

  /** A JSON number whose value is zero (or minus zero): `-?0(\.0+)?`
      followed by an optional exponent. */
  predicate IsZeroNumber(s: string) {
    var t := if |s| > 0 && s[0] == '-' then s[1..] else s;
    |t| > 0 && t[0] == '0' && IsZeroTail(t[1..])
  }

  /** The JSON texts modelled as parsing to a falsy value: `null`, `false`,
      the empty string and zero written `-?0(\.0+)?` with an optional
      exponent. Surrounding whitespace is not accepted. */
  predicate IsFalsyJson(s: string) {
    s == "null" || s == "false" || s == "\"\"" || IsZeroNumber(s)
  }

  /** An array text is never falsy: the two readings of a slot do not overlap. */
  lemma FalsyTextNotArray(s: string)
    ensures IsFalsyJson(s) ==> |s| > 0 && s[0] != '[' && Parse(s).Failure?
  {
    assert "null"[0] == 'n' && "false"[0] == 'f' && "\"\""[0] == '"';
  }

  /* ---------- Round trip ---------- */

  lemma HexRoundTrip(n: nat)
    requires n < 16
    ensures HexValue(HexDigit(n)) == Some(n)
  {
  }

  /** Each escaped code point reads back as itself. */
  lemma ParseEscapedChar(c: char, rest: string)
    ensures |EscapeChar(c) + rest| > 0 && (EscapeChar(c) + rest)[0] != '"'
    ensures ParseCharToken(EscapeChar(c) + rest) == Some((c, rest))
  {
    if IsUnicodeEscaped(c) {
      ParseUnicodeEscape(c, rest);
    } else if |EscapeChar(c)| == 2 {
      var s := EscapeChar(c) + rest;
      assert s[2..] == rest;
    } else {
      var s := EscapeChar(c) + rest;
      assert s[1..] == rest;
    }
  }

  /** The control characters without a short escape. */
  predicate IsUnicodeEscaped(c: char) {
    c as int < 0x20 && c != '\n' && c != '\r' && c != '\t' && c as int != 0x08 && c as int != 0x0C
  }

  lemma ParseUnicodeEscape(c: char, rest: string)
    requires IsUnicodeEscaped(c)
    ensures ParseCharToken(EscapeChar(c) + rest) == Some((c, rest))
  {
    var n := c as int;
    var s := EscapeChar(c) + rest;
    HexRoundTrip(n / 16);
    HexRoundTrip(n % 16);
    HexRoundTrip(0);
    assert s[..6] == ['\\', 'u', '0', '0', HexDigit(n / 16), HexDigit(n % 16)];
    assert s[6..] == rest;
  }

  lemma {:induction false} ParseQuotedBody(t: string, rest: string)
    ensures ParseChars(EscapeAll(t) + ['"'] + rest) == Some((t, rest))
    decreases |t|
  {
    if |t| == 0 {
      assert EscapeAll(t) + ['"'] + rest == ['"'] + rest;
    } else {
      var tail := EscapeAll(t[1..]) + ['"'] + rest;
      EscapeAllStep(t, rest);
      ParseEscapedChar(t[0], tail);
      ParseQuotedBody(t[1..], rest);
      ParseCharsStep(EscapeChar(t[0]) + tail, t[0], tail, t[1..], rest);
      assert [t[0]] + t[1..] == t;
    }
  }

  lemma EscapeAllStep(t: string, rest: string)
    requires |t| > 0
    ensures EscapeAll(t) + ['"'] + rest == EscapeChar(t[0]) + (EscapeAll(t[1..]) + ['"'] + rest)
  {
    var a, b := EscapeChar(t[0]), EscapeAll(t[1..]);
    assert EscapeAll(t) == a + b;
    ConcatAssoc4(a, b, ['"'], rest);
  }

  lemma ConcatAssoc4<T>(a: seq<T>, b: seq<T>, c: seq<T>, d: seq<T>)
    ensures a + b + c + d == a + (b + c + d)
  {
  }

  /** ParseChars reads one character token and then the rest of the body. */
  lemma ParseCharsStep(s: string, c: char, tail: string, body: string, rest: string)
    requires |s| > 0 && s[0] != '"' && ParseCharToken(s) == Some((c, tail))
    requires ParseChars(tail) == Some((body, rest))
    ensures ParseChars(s) == Some(([c] + body, rest))
  {
  }

  lemma ExpectPrefix(lit: string, rest: string)
    ensures Expect(lit, lit + rest) == Some(rest)
  {
    assert lit <= lit + rest;
    assert (lit + rest)[|lit|..] == rest;
  }

  /** ParseTask succeeds when each of its five steps does. */
  lemma ParseTaskSteps(s: string, s1: string, text: string, s2: string, s3: string, done: bool, s4: string, s5: string)
    requires Expect("{\"text\":", s) == Some(s1)
    requires ParseString(s1) == Some((text, s2))
    requires Expect(",\"completed\":", s2) == Some(s3)
    requires ParseBool(s3) == Some((done, s4))
    requires Expect("}", s4) == Some(s5)
    ensures ParseTask(s) == Some((Task(text, done), s5))
  {
  }

  lemma ParseStringifiedBool(b: bool, rest: string)
    ensures ParseBool((if b then "true" else "false") + rest) == Some((b, rest))
  {
    var s := (if b then "true" else "false") + rest;
    if b {
      assert "true" <= s;
      assert s[4..] == rest;
    } else {
      assert s[0] == 'f';
      assert "false" <= s;
      assert s[5..] == rest;
    }
  }

  lemma ParseQuoted(text: string, rest: string)
    ensures ParseString(Quote(text) + rest) == Some((text, rest))
  {
    var s := Quote(text) + rest;
    assert s[1..] == EscapeAll(text) + ['"'] + rest;
    ParseQuotedBody(text, rest);
  }

  lemma ParseStringifiedTask(t: Task, rest: string)
    ensures ParseTask(StringifyTask(t) + rest) == Some((t, rest))
  {
    var b := if t.completed then "true" else "false";
    var s4 := "}" + rest;
    var s3 := b + s4;
    var s2 := ",\"completed\":" + s3;
    var s1 := Quote(t.text) + s2;
    assert StringifyTask(t) + rest == "{\"text\":" + s1;
    ExpectPrefix("{\"text\":", s1);
    ParseQuoted(t.text, s2);
    ExpectPrefix(",\"completed\":", s3);
    ParseStringifiedBool(t.completed, s4);
    ExpectPrefix("}", rest);
    ParseTaskSteps(StringifyTask(t) + rest, s1, t.text, s2, s3, t.completed, s4, rest);
  }

  lemma ParseElementsMore(s: string, t: Task, tail: string, ts: seq<Task>, rest: string)
    requires ParseTask(s) == Some((t, "," + tail))
    requires ParseElements(tail) == Some((ts, rest))
    ensures ParseElements(s) == Some(([t] + ts, rest))
  {
    assert ("," + tail)[1..] == tail;
  }

  lemma ParseElementsLast(s: string, t: Task, rest: string)
    requires ParseTask(s) == Some((t, "]" + rest))
    ensures ParseElements(s) == Some(([t], rest))
  {
    assert ("]" + rest)[1..] == rest;
  }

  lemma {:induction false} ParseStringifiedElements(ts: seq<Task>, rest: string)
    requires |ts| > 0
    ensures ParseElements(StringifyElements(ts) + "]" + rest) == Some((ts, rest))
    decreases |ts|
  {
    if |ts| == 1 {
      ParseOneElement(ts, rest);
    } else {
      ParseStringifiedElements(ts[1..], rest);
      ParseNextElement(ts, rest);
    }
  }

  lemma ParseOneElement(ts: seq<Task>, rest: string)
    requires |ts| == 1
    ensures ParseElements(StringifyElements(ts) + "]" + rest) == Some((ts, rest))
  {
    var head := StringifyTask(ts[0]);
    assert StringifyElements(ts) + "]" + rest == head + ("]" + rest);
    ParseStringifiedTask(ts[0], "]" + rest);
    ParseElementsLast(head + ("]" + rest), ts[0], rest);
    assert [ts[0]] == ts;
  }

  lemma ParseNextElement(ts: seq<Task>, rest: string)
    requires |ts| > 1
    requires ParseElements(StringifyElements(ts[1..]) + "]" + rest) == Some((ts[1..], rest))
    ensures ParseElements(StringifyElements(ts) + "]" + rest) == Some((ts, rest))
  {
    var head := StringifyTask(ts[0]);
    var more := StringifyElements(ts[1..]);
    var tail := more + "]" + rest;
    assert StringifyElements(ts) == head + "," + more;
    ConcatAssoc(head, more, rest);
    ParseStringifiedTask(ts[0], "," + tail);
    ParseElementsMore(head + ("," + tail), ts[0], tail, ts[1..], rest);
    assert [ts[0]] + ts[1..] == ts;
  }

  lemma ParseArrayEmpty(s: string)
    requires Expect("[", s) == Some("]")
    ensures ParseArray(s) == Some(([], []))
  {
    var s1 := Expect("[", s).value;
    assert |s1| == 1 && s1[0] == ']';
    assert s1[1..] == [];
  }

  lemma ConcatAssoc(head: string, more: string, rest: string)
    ensures head + "," + more + "]" + rest == head + ("," + (more + "]" + rest))
  {
  }

  /** Reading back what was written gives the same records in the same order. */
  lemma ParseStringify(ts: seq<Task>)
    ensures Parse(Stringify(ts)) == Success(ts)
  {
    if |ts| == 0 {
      assert Stringify(ts) == "[" + "]";
      ExpectPrefix("[", "]");
      ParseArrayEmpty(Stringify(ts));
    } else {
      var body := StringifyElements(ts);
      assert Stringify(ts) == "[" + (body + "]" + []);
      ExpectPrefix("[", body + "]" + []);
      assert StringifyTask(ts[0])[0] == '{';
      assert body[0] == '{';
      ParseStringifiedElements(ts, []);
      assert ParseArray(Stringify(ts)) == Some((ts, []));
    }
  }

  /** Distinct task lists are stored as distinct strings. */
  lemma StringifyInjective(a: seq<Task>, b: seq<Task>)
    requires Stringify(a) == Stringify(b)
    ensures a == b
  {
    ParseStringify(a);
    ParseStringify(b);
  }
}

=== FILE: task_list.dfy ===
/**
  The state `script.js` keeps in the DOM: the `<li>` children of
  `#taskList`, in order, and the pure operations each user gesture applies
  to them.
 */
module TaskList {
  import opened Wrappers
  import opened JsString
  import opened TaskJson
  import opened SeqOps

  /** One `<li>`: its text node (the empty string when the row has none),
      whether its checkbox is checked, and whether it has the `completed`
      class. */
  datatype Row = Row(text: string, checked: bool, completed: bool)

  /** Why `addTask` refused its input; the page shows
      "Task must be at least 3 characters!". */
  datatype Rejection = TooShort

  /** The checkbox and the `completed` class agree. */
  predicate InSync(row: Row) {
    row.checked == row.completed
  }

  /** What every row the page creates satisfies: trimmed text of at least
      three UTF-16 code units, checkbox in sync with the class. */
  predicate WellFormed(row: Row) {
    IsTrimmed(row.text) && Utf16Length(row.text) >= 3 && InSync(row)
  }

  predicate AllWellFormed(rows: seq<Row>) {
    forall i :: 0 <= i < |rows| ==> WellFormed(rows[i])
  }

  /* ---------- addTask ---------- */

  /** The guard of `addTask` as written: empty, or shorter than 3 code units. */
  predicate IsRejected(taskText: string) {
    taskText == "" || Utf16Length(taskText) < 3
  }

  /** The emptiness test in the guard adds nothing to the length test. */
  lemma RejectedIffShort(taskText: string)
    ensures IsRejected(taskText) <==> Utf16Length(taskText) < 3
  {
  }

  /** `addTask`: trims the input; rejects it when too short, otherwise
      appends an unchecked row holding the trimmed text. */
  function Add(rows: seq<Row>, input: string): (r: Result<seq<Row>, Rejection>)
    ensures r.Failure? <==> Utf16Length(Trim(input)) < 3
    ensures r.Success? ==> |r.value| == |rows| + 1 && r.value[..|rows|] == rows
    ensures r.Success? ==> r.value[|rows|].text == Trim(input) && !r.value[|rows|].completed
    ensures r.Success? ==> WellFormed(r.value[|rows|])
  {
    var taskText := Trim(input);
    if IsRejected(taskText) then Failure(TooShort)
    else Success(rows + [Row(taskText, false, false)])
  }

  /** An accepted add keeps every row well formed. */
  lemma AddWellFormed(rows: seq<Row>, input: string)
    requires AllWellFormed(rows) && Add(rows, input).Success?
    ensures AllWellFormed(Add(rows, input).value)
  {
    var r := Add(rows, input).value;
    forall i | 0 <= i < |r|
      ensures WellFormed(r[i])
    {
      if i < |rows| {
        assert r[i] == r[..|rows|][i] == rows[i];
      }
    }
  }

  /* ---------- checkbox change ---------- */

  /** The checkbox `change` listener: the browser flips `checked`, then the
      listener sets the `completed` class to the new `checked`. */
  function Toggle(rows: seq<Row>, p: nat): (r: seq<Row>)
    requires p < |rows|
    ensures |r| == |rows|
    ensures forall i :: 0 <= i < |rows| && i != p ==> r[i] == rows[i]
    ensures r[p].text == rows[p].text
    ensures r[p].checked == !rows[p].checked && InSync(r[p])
  {
    var checked := !rows[p].checked;
    rows[p := Row(rows[p].text, checked, checked)]
  }

  /** On a row whose checkbox agrees with its class, toggling flips
      `completed` and nothing else. */
  lemma ToggleFlips(rows: seq<Row>, p: nat)
    requires p < |rows| && InSync(rows[p])
    ensures Toggle(rows, p)[p] == rows[p].(completed := !rows[p].completed, checked := !rows[p].checked)
    ensures AllWellFormed(rows) ==> AllWellFormed(Toggle(rows, p))
  {
  }

  /** Toggling the same in-sync row twice restores the list. */
  lemma ToggleTwice(rows: seq<Row>, p: nat)
    requires p < |rows| && InSync(rows[p])
    ensures Toggle(Toggle(rows, p), p) == rows
  {
  }

  /* ---------- counter ---------- */

  /** `#taskList li:not(.completed)`.length: rows without the `completed` class. */
  function ActiveCount(rows: seq<Row>): (n: nat)
    ensures n <= |rows|
    ensures n == |rows| <==> forall i :: 0 <= i < |rows| ==> !rows[i].completed
  {
    if |rows| == 0 then 0
    else (if rows[0].completed then 0 else 1) + ActiveCount(rows[1..])
  }

  lemma {:induction false} ActiveCountConcat(a: seq<Row>, b: seq<Row>)
    ensures ActiveCount(a + b) == ActiveCount(a) + ActiveCount(b)
    decreases |a|
  {
    if |a| == 0 {
      assert a + b == b;
    } else {
      assert (a + b)[1..] == a[1..] + b;
      ActiveCountConcat(a[1..], b);
    }
  }

  /** An accepted add raises the count by one; a rejected one changes nothing. */
  lemma AddCount(rows: seq<Row>, input: string)
    ensures Add(rows, input).Success? ==> ActiveCount(Add(rows, input).value) == ActiveCount(rows) + 1
    ensures Add(rows, input).Failure? <==> Utf16Length(Trim(input)) < 3
  {
    var r := Add(rows, input);
    if r.Success? {
      assert r.value == rows + [r.value[|rows|]];
      ActiveCountConcat(rows, [r.value[|rows|]]);
    }
  }

  /** The count around one position. */
  lemma ActiveCountAround(rows: seq<Row>, p: nat)
    requires p < |rows|
    ensures ActiveCount(rows) == ActiveCount(rows[..p]) + (if rows[p].completed then 0 else 1) + ActiveCount(rows[p + 1..])
  {
    var before, after := rows[..p], rows[p + 1..];
    assert rows == (before + [rows[p]]) + after;
    ActiveCountConcat(before + [rows[p]], after);
    ActiveCountConcat(before, [rows[p]]);
  }

  /** Toggling an in-sync row moves the count by exactly one, down when the
      row becomes completed and up when it becomes active again. */
  lemma ToggleCount(rows: seq<Row>, p: nat)
    requires p < |rows| && InSync(rows[p])
    ensures rows[p].completed ==> ActiveCount(Toggle(rows, p)) == ActiveCount(rows) + 1
    ensures !rows[p].completed ==> ActiveCount(Toggle(rows, p)) + 1 == ActiveCount(rows)
  {
    var r := Toggle(rows, p);
    assert r[..p] == rows[..p];
    assert r[p + 1..] == rows[p + 1..];
    ActiveCountAround(rows, p);
    ActiveCountAround(r, p);
  }

  /** Deleting a row lowers the count exactly when that row was active. */
  lemma RemoveCount(rows: seq<Row>, p: nat)
    requires p < |rows|
    ensures ActiveCount(Remove(rows, p)) + (if rows[p].completed then 0 else 1) == ActiveCount(rows)
  {
    var before, after := rows[..p], rows[p + 1..];
    assert Remove(rows, p) == before + after;
    ActiveCountAround(rows, p);
    ActiveCountConcat(before, after);
  }

  /** Deleting keeps every remaining row well formed. */
  lemma RemoveWellFormed(rows: seq<Row>, p: nat)
    requires p < |rows| && AllWellFormed(rows)
    ensures AllWellFormed(Remove(rows, p))
  {
  }

  /* ---------- filter ---------- */

  /** The two values `li.style.display` takes: "flex" and "none". */
  datatype Display = Flex | Hidden

  /** `filterTasks` for one row. */
  function Visibility(filterValue: string, row: Row): Display {
    if filterValue == "all" then Flex
    else if filterValue == "active" && !row.completed then Flex
    else if filterValue == "completed" && row.completed then Flex
    else Hidden
  }

  /** `filterTasks`: one display value per row, in row order, as assigned
      when the filter changes. No other handler runs it again. */
  function FilterTasks(rows: seq<Row>, filterValue: string): (ds: seq<Display>)
    ensures |ds| == |rows|
    ensures forall i :: 0 <= i < |rows| ==>
      (ds[i] == Flex <==>
        || filterValue == "all"
        || (filterValue == "active" && !rows[i].completed)
        || (filterValue == "completed" && rows[i].completed))
  {
    seq(|rows|, i requires 0 <= i < |rows| => Visibility(filterValue, rows[i]))
  }

  /** The rows `filterTasks` leaves displayed, in order. */
  function Shown(rows: seq<Row>, filterValue: string): (r: seq<Row>)
    ensures |r| <= |rows|
    ensures forall x :: x in r ==> x in rows && Visibility(filterValue, x) == Flex
  {
    if |rows| == 0 then []
    else if Visibility(filterValue, rows[0]) == Flex then [rows[0]] + Shown(rows[1..], filterValue)
    else Shown(rows[1..], filterValue)
  }

  /** The counter equals the number of rows the "active" filter shows. */
  lemma {:induction false} ActiveShownCount(rows: seq<Row>)
    ensures ActiveCount(rows) == |Shown(rows, "active")|
    decreases |rows|
  {
    if |rows| > 0 {
      ActiveShownCount(rows[1..]);
      assert [rows[0]] + rows[1..] == rows;
    }
  }

  /** The "active" and "completed" filters split the list between them. */
  lemma {:induction false} ActiveCompletedSplit(rows: seq<Row>)
    ensures |Shown(rows, "active")| + |Shown(rows, "completed")| == |rows|
    decreases |rows|
  {
    if |rows| > 0 {
      ActiveCompletedSplit(rows[1..]);
    }
  }

  /** The "all" filter shows every row. */
  lemma {:induction false} AllShowsEverything(rows: seq<Row>)
    ensures Shown(rows, "all") == rows
    decreases |rows|
  {
    if |rows| > 0 {
      AllShowsEverything(rows[1..]);
      assert [rows[0]] + rows[1..] == rows;
    }
  }

  /** Any other filter value hides every row. */
  lemma {:induction false} OtherShowsNothing(rows: seq<Row>, v: string)
    requires v != "all" && v != "active" && v != "completed"
    ensures Shown(rows, v) == []
    decreases |rows|
  {
    if |rows| > 0 {
      OtherShowsNothing(rows[1..], v);
    }
  }

  /* ---------- drag and drop ---------- */

  /** Layout of one row when the `dragover` event fires: `offsetTop` and
      `offsetHeight`, in whole pixels. */
  datatype Box = Box(top: int, height: int)

  /** `clientY < offsetTop + offsetHeight / 2`, multiplied by two so that it
      stays in the integers. */
  predicate PointerAbove(b: Box, clientY: int) {
    2 * clientY < 2 * b.top + b.height
  }

  /** Doubling both sides keeps the test exact: it is the browser's
      comparison with the midpoint `offsetTop + offsetHeight / 2`, computed
      without rounding. */
  lemma PointerAboveMidpoint(b: Box, clientY: int)
    ensures PointerAbove(b, clientY) <==> (clientY as real) < (b.top as real) + (b.height as real) / 2.0
  {
  }

  /** The first row at or after `k`, other than the dragged one, whose
      midpoint is below the pointer. */
  function AnchorFrom(geo: seq<Box>, dragged: nat, clientY: int, k: nat): (a: Option<nat>)
    requires k <= |geo|
    ensures a.Some? ==> k <= a.value < |geo| && a.value != dragged && PointerAbove(geo[a.value], clientY)
    ensures a.Some? ==> forall j :: k <= j < a.value && j != dragged ==> !PointerAbove(geo[j], clientY)
    ensures a.None? ==> forall j :: k <= j < |geo| && j != dragged ==> !PointerAbove(geo[j], clientY)
    decreases |geo| - k
  {
    if k == |geo| then None
    else if k != dragged && PointerAbove(geo[k], clientY) then Some(k)
    else AnchorFrom(geo, dragged, clientY, k + 1)
  }

  /** The `find` over `li:not(.dragging)`: the row the dragged one goes
      before, or None when the pointer is below every other midpoint. */
  function Anchor(geo: seq<Box>, dragged: nat, clientY: int): (a: Option<nat>)
    ensures a.Some? ==> a.value < |geo| && a.value != dragged && PointerAbove(geo[a.value], clientY)
    ensures a.Some? ==> forall j :: 0 <= j < a.value && j != dragged ==> !PointerAbove(geo[j], clientY)
    ensures a.None? ==> forall j :: 0 <= j < |geo| && j != dragged ==> !PointerAbove(geo[j], clientY)
  {
    AnchorFrom(geo, dragged, clientY, 0)
  }

  /** Where the dragged row ends up after `insertBefore`: the anchor's index
      once the dragged row is out of the list, or the last index. */
  function DropIndex(geo: seq<Box>, dragged: nat, clientY: int): (k: nat)
    requires dragged < |geo|
    ensures k < |geo|
  {
    match Anchor(geo, dragged, clientY)
    case None => |geo| - 1
    case Some(a) => if a < dragged then a else a - 1
  }

  /** The `dragover` listener: `insertBefore(draggingItem, afterElement)`. */
  function DragOver(rows: seq<Row>, geo: seq<Box>, dragged: nat, clientY: int): (r: seq<Row>)
    requires |geo| == |rows| && dragged < |rows|
    ensures |r| == |rows|
    ensures multiset(r) == multiset(rows)
    ensures r[DropIndex(geo, dragged, clientY)] == rows[dragged]
    ensures Remove(r, DropIndex(geo, dragged, clientY)) == Remove(rows, dragged)
  {
    MovePermutes(rows, dragged, DropIndex(geo, dragged, clientY));
    Move(rows, dragged, DropIndex(geo, dragged, clientY))
  }

  /** The dragged row lands directly in front of the anchor, or last when
      there is none. */
  lemma DragOverPlacement(rows: seq<Row>, geo: seq<Box>, dragged: nat, clientY: int)
    requires |geo| == |rows| && dragged < |rows|
    ensures Anchor(geo, dragged, clientY).None? ==> DragOver(rows, geo, dragged, clientY)[|rows| - 1] == rows[dragged]
    ensures Anchor(geo, dragged, clientY).Some? ==>
      var k := DropIndex(geo, dragged, clientY);
      k + 1 < |rows| && DragOver(rows, geo, dragged, clientY)[k + 1] == rows[Anchor(geo, dragged, clientY).value]
  {
    if Anchor(geo, dragged, clientY).Some? {
      DragOverBeforeAnchor(rows, geo, dragged, clientY);
    }
  }

  lemma DragOverBeforeAnchor(rows: seq<Row>, geo: seq<Box>, dragged: nat, clientY: int)
    requires |geo| == |rows| && dragged < |rows| && Anchor(geo, dragged, clientY).Some?
    ensures var k := DropIndex(geo, dragged, clientY);
      k + 1 < |rows| && DragOver(rows, geo, dragged, clientY)[k + 1] == rows[Anchor(geo, dragged, clientY).value]
  {
    var r := DragOver(rows, geo, dragged, clientY);
    var k := DropIndex(geo, dragged, clientY);
    var a := Anchor(geo, dragged, clientY).value;
    var rest := Remove(rows, dragged);
    if a < dragged {
      assert k == a;
    } else {
      assert k == a - 1;
    }
    assert rest[k] == rows[a];
    assert Remove(r, k) == rest;
    assert rest[k] == r[k + 1];
  }

  /** The `dragover` reorder is the dragged row taken out and inserted again
      at the drop index: the other rows keep their relative order. */
  lemma DragOverIsReinsert(rows: seq<Row>, geo: seq<Box>, dragged: nat, clientY: int)
    requires |geo| == |rows| && dragged < |rows|
    ensures DragOver(rows, geo, dragged, clientY) ==
      Insert(Remove(rows, dragged), DropIndex(geo, dragged, clientY), rows[dragged])
  {
    InsertRemove(DragOver(rows, geo, dragged, clientY), DropIndex(geo, dragged, clientY));
  }

  /** Reordering changes neither the counter nor the well-formedness of the rows. */
  lemma DragOverKeeps(rows: seq<Row>, geo: seq<Box>, dragged: nat, clientY: int)
    requires |geo| == |rows| && dragged < |rows|
    ensures ActiveCount(DragOver(rows, geo, dragged, clientY)) == ActiveCount(rows)
    ensures AllWellFormed(rows) ==> AllWellFormed(DragOver(rows, geo, dragged, clientY))
  {
    var r := DragOver(rows, geo, dragged, clientY);
    var k := DropIndex(geo, dragged, clientY);
    RemoveCount(r, k);
    RemoveCount(rows, dragged);
    if AllWellFormed(rows) {
      forall i | 0 <= i < |r|
        ensures WellFormed(r[i])
      {
        assert r[i] in multiset(rows);
      }
    }
  }

  /** Dragging the only row leaves the list as it is. */
  lemma DragOnlyRow(rows: seq<Row>, geo: seq<Box>, clientY: int)
    requires |geo| == |rows| == 1
    ensures DragOver(rows, geo, 0, clientY) == rows
  {
  }

  /* ---------- save and load ---------- */

  /** What `saveTasks` collects: each row's text node trimmed, and its
      `completed` class; None when some row has no text node, where
      `childNodes[1]` is the delete button, its `nodeValue` is null and
      `.trim()` throws. */
  function Snapshot(rows: seq<Row>): (r: Option<seq<Task>>)
    ensures r.Some? <==> forall i :: 0 <= i < |rows| ==> rows[i].text != ""
    ensures r.Some? ==> |r.value| == |rows|
    ensures r.Some? ==> forall i :: 0 <= i < |rows| ==> r.value[i] == SavedTask(rows[i])
  {
    if forall i | 0 <= i < |rows| :: rows[i].text != "" then
      Some(seq(|rows|, i requires 0 <= i < |rows| => SavedTask(rows[i])))
    else
      None
  }

  /** The record `saveTasks` makes of a row that has a text node. */
  function SavedTask(row: Row): (t: Task)
    ensures IsTrimmed(t.text) && t.completed == row.completed
    ensures IsTrimmed(row.text) ==> t.text == row.text
  {
    TrimmedIsFixed(row.text);
    Task(Trim(row.text), row.completed)
  }

  /** `saveTasks`: the string written to the "tasks" slot, or None when it throws. */
  function SaveTasks(rows: seq<Row>): (r: Option<string>)
    ensures r.Some? <==> forall i :: 0 <= i < |rows| ==> rows[i].text != ""
    ensures r.Some? ==> |r.value| >= 2 && r.value[0] == '['
  {
    var ts :- Snapshot(rows);
    Some(Stringify(ts))
  }

  /** The row `loadTasks` builds for one stored record. */
  function RowOf(t: Task): (row: Row)
    ensures row.text == t.text && row.completed == t.completed && InSync(row)
  {
    Row(t.text, t.completed, t.completed)
  }

  function RowsOf(ts: seq<Task>): (rows: seq<Row>)
    ensures |rows| == |ts|
    ensures forall i :: 0 <= i < |ts| ==> rows[i] == RowOf(ts[i])
  {
    seq(|ts|, i requires 0 <= i < |ts| => RowOf(ts[i]))
  }

  /** The records a list of rows stands for. */
  function TasksOf(rows: seq<Row>): (ts: seq<Task>)
    ensures |ts| == |rows|
    ensures forall i :: 0 <= i < |rows| ==> ts[i] == Task(rows[i].text, rows[i].completed)
  {
    seq(|rows|, i requires 0 <= i < |rows| => Task(rows[i].text, rows[i].completed))
  }

  /** `JSON.parse(localStorage.getItem("tasks")) || []`: an absent slot
      (`getItem` gives `null`, which parses as `null`) and a slot whose text
      parses to a falsy value both fall back to the empty array. Any other
      text that is not a stored task array makes `loadTasks` throw, inside
      `JSON.parse` or at `forEach`. */
  function LoadSlot(slot: Option<string>): (r: Result<seq<Task>, ParseError>)
    ensures slot.None? ==> r == Success([])
    ensures slot.Some? && IsFalsyJson(slot.value) ==> r == Success([])
    ensures slot.Some? && Parse(slot.value).Success? ==> r == Parse(slot.value)
    ensures r.Failure? ==> slot.Some? && Parse(slot.value).Failure?
    ensures slot.Some? && !IsFalsyJson(slot.value) && Parse(slot.value).Failure? ==> r.Failure?
  {
    match slot
    case None => Success([])
    case Some(s) =>
      if IsFalsyJson(s) then
        FalsyTextNotArray(s);
        Success([])
      else Parse(s)
  }

  /** Well-formed rows save without throwing, and exactly as they are. */
  lemma SnapshotWellFormed(rows: seq<Row>)
    requires AllWellFormed(rows)
    ensures Snapshot(rows) == Some(TasksOf(rows))
  {
    forall i | 0 <= i < |rows|
      ensures rows[i].text != "" && Trim(rows[i].text) == rows[i].text
    {
      TrimmedIsFixed(rows[i].text);
    }
    var ts, us := Snapshot(rows).value, TasksOf(rows);
    forall i | 0 <= i < |rows|
      ensures ts[i] == us[i]
    {
      assert ts[i] == Task(Trim(rows[i].text), rows[i].completed);
    }
    assert ts == us;
  }

  /** Well-formed rows are saved, and the slot reads back as their records. */
  lemma SavedSlotReloads(rows: seq<Row>)
    requires AllWellFormed(rows)
    ensures SaveTasks(rows) == Some(Stringify(TasksOf(rows)))
    ensures LoadSlot(SaveTasks(rows)) == Success(TasksOf(rows))
  {
    var ts := TasksOf(rows);
    SnapshotWellFormed(rows);
    ParseStringify(ts);
    FalsyTextNotArray(Stringify(ts));
  }

  /** Loading what `saveTasks` wrote gives back the rows with their text
      trimmed and their checkbox set from the class, in the same order;
      well-formed rows come back unchanged. */
  lemma SaveThenLoad(rows: seq<Row>)
    requires SaveTasks(rows).Some?
    ensures LoadSlot(SaveTasks(rows)).Success?
    ensures var loaded := RowsOf(LoadSlot(SaveTasks(rows)).value);
      && |loaded| == |rows|
      && forall i :: 0 <= i < |rows| ==> loaded[i] == Row(Trim(rows[i].text), rows[i].completed, rows[i].completed)
    ensures AllWellFormed(rows) ==> RowsOf(LoadSlot(SaveTasks(rows)).value) == rows
  {
    var ts := Snapshot(rows).value;
    ParseStringify(ts);
    FalsyTextNotArray(Stringify(ts));
    assert LoadSlot(SaveTasks(rows)) == Success(ts);
    var loaded := RowsOf(ts);
    forall i | 0 <= i < |rows|
      ensures loaded[i] == Row(Trim(rows[i].text), rows[i].completed, rows[i].completed)
    {
      assert ts[i] == Task(Trim(rows[i].text), rows[i].completed);
    }
    if AllWellFormed(rows) {
      SnapshotWellFormed(rows);
      forall i | 0 <= i < |rows|
        ensures loaded[i] == rows[i]
      {
        assert ts[i] == Task(rows[i].text, rows[i].completed);
      }
    }
  }

  /** Rows whose checkbox agrees with their class are exactly the rows
      their records load as. */
  lemma RowsOfTasksOf(rows: seq<Row>)
    requires forall i :: 0 <= i < |rows| ==> InSync(rows[i])
    ensures RowsOf(TasksOf(rows)) == rows
  {
    var loaded := RowsOf(TasksOf(rows));
    forall i | 0 <= i < |rows|
      ensures loaded[i] == rows[i]
    {
    }
  }

  /** Loading never yields a row whose checkbox disagrees with its class. */
  lemma LoadedRowsInSync(ts: seq<Task>)
    ensures forall i :: 0 <= i < |ts| ==> InSync(RowsOf(ts)[i])
    ensures TasksOf(RowsOf(ts)) == ts
  {
  }
}

=== FILE: todo_page.dfy ===
/**
  The page as a whole: the task rows, the text field, the "tasks" storage
  slot and the number the counter shows, with one function per event
  handler of `script.js`. A handler that throws stops where it throws:
  what it did before stays, what comes after does not happen.
 */
module TodoPage {
  import opened Wrappers
  import opened JsString
  import opened TaskJson
  import opened SeqOps
  import opened TaskList

  datatype Page = Page(rows: seq<Row>, input: string, slot: Option<string>, counter: nat)

  /** The page agrees with itself: every row well formed, the counter shows
      the active count, and the slot holds what `saveTasks` writes for these
      rows (or nothing, for a list that is still empty). */
  predicate Consistent(page: Page) {
    && AllWellFormed(page.rows)
    && page.counter == ActiveCount(page.rows)
    && (page.slot == SaveTasks(page.rows) || (page.slot.None? && page.rows == []))
  }

  /** On a consistent page, reloading the slot gives back exactly its rows. */
  lemma ConsistentReloads(page: Page)
    requires Consistent(page)
    ensures LoadSlot(page.slot) == Success(TasksOf(page.rows))
  {
    if page.slot.Some? {
      SavedSlotReloads(page.rows);
    }
  }

  /** `saveTasks(); updateCounter();` after the rows became `rows`. */
  function SaveAndCount(page: Page, rows: seq<Row>): (r: Page)
    ensures r.rows == rows && r.input == page.input
    ensures SaveTasks(rows).None? ==> r.slot == page.slot && r.counter == page.counter
    ensures SaveTasks(rows).Some? ==> r.slot == SaveTasks(rows) && r.counter == ActiveCount(rows)
  {
    match SaveTasks(rows)
    case None => page.(rows := rows)
    case Some(s) => page.(rows := rows, slot := Some(s), counter := ActiveCount(rows))
  }

  /** After any change to well-formed rows, saving and counting makes the
      page consistent again. */
  lemma SaveAndCountConsistent(page: Page, rows: seq<Row>)
    requires AllWellFormed(rows)
    ensures SaveTasks(rows).Some?
    ensures Consistent(SaveAndCount(page, rows))
  {
    SnapshotWellFormed(rows);
  }

  /** The add button: `addTask`. On rejection nothing changes (the message
      and the `invalid` class are not modelled); otherwise the row is
      appended, saved, counted and the text field cleared. */
  function OnAdd(page: Page): (r: Page)
    ensures Utf16Length(Trim(page.input)) < 3 ==> r == page
    ensures Utf16Length(Trim(page.input)) >= 3 ==>
      && |r.rows| == |page.rows| + 1
      && r.rows[..|page.rows|] == page.rows
      && r.rows[|page.rows|] == Row(Trim(page.input), false, false)
    ensures Utf16Length(Trim(page.input)) >= 3 && SaveTasks(r.rows).Some? ==>
      r.slot == SaveTasks(r.rows) && r.counter == ActiveCount(r.rows) && r.input == ""
    ensures Utf16Length(Trim(page.input)) >= 3 && SaveTasks(r.rows).None? ==>
      r.slot == page.slot && r.counter == page.counter && r.input == page.input
  {
    match Add(page.rows, page.input)
    case Failure(_) => page
    case Success(rows) =>
      var saved := SaveAndCount(page, rows);
      if SaveTasks(rows).Some? then saved.(input := "") else saved
  }

  lemma AddKeepsConsistent(page: Page)
    requires Consistent(page)
    ensures Consistent(OnAdd(page))
    ensures Utf16Length(Trim(page.input)) >= 3 ==>
      OnAdd(page).counter == page.counter + 1 && OnAdd(page).input == ""
    ensures Utf16Length(Trim(page.input)) < 3 ==> OnAdd(page) == page
  {
    var r := Add(page.rows, page.input);
    if r.Success? {
      AddWellFormed(page.rows, page.input);
      SaveAndCountConsistent(page, r.value);
      AddCount(page.rows, page.input);
      assert OnAdd(page) == SaveAndCount(page, r.value).(input := "");
    }
  }

  /** A checkbox `change` event on row `p`. */
  function OnCheckboxChange(page: Page, p: nat): (r: Page)
    requires p < |page.rows|
    ensures |r.rows| == |page.rows|
    ensures forall i :: 0 <= i < |page.rows| && i != p ==> r.rows[i] == page.rows[i]
    ensures r.rows[p].text == page.rows[p].text && r.rows[p].checked != page.rows[p].checked
    ensures r.rows[p].completed == r.rows[p].checked
    ensures r.input == page.input
    ensures SaveTasks(r.rows).Some? ==> r.slot == SaveTasks(r.rows) && r.counter == ActiveCount(r.rows)
    ensures SaveTasks(r.rows).None? ==> r.slot == page.slot && r.counter == page.counter
  {
    SaveAndCount(page, Toggle(page.rows, p))
  }

  lemma CheckboxKeepsConsistent(page: Page, p: nat)
    requires Consistent(page) && p < |page.rows|
    ensures Consistent(OnCheckboxChange(page, p))
    ensures OnCheckboxChange(page, p).rows[p].completed == !page.rows[p].completed
    ensures OnCheckboxChange(OnCheckboxChange(page, p), p).rows == page.rows
  {
    ToggleFlips(page.rows, p);
    ToggleTwice(page.rows, p);
    SaveAndCountConsistent(page, Toggle(page.rows, p));
  }

  /** A click on the delete button of row `p`. */
  function OnDelete(page: Page, p: nat): (r: Page)
    requires p < |page.rows|
    ensures |r.rows| == |page.rows| - 1
    ensures r.rows == Remove(page.rows, p)
    ensures r.input == page.input
    ensures SaveTasks(r.rows).Some? ==> r.slot == SaveTasks(r.rows) && r.counter == ActiveCount(r.rows)
    ensures SaveTasks(r.rows).None? ==> r.slot == page.slot && r.counter == page.counter
  {
    SaveAndCount(page, Remove(page.rows, p))
  }

  lemma DeleteKeepsConsistent(page: Page, p: nat)
    requires Consistent(page) && p < |page.rows|
    ensures Consistent(OnDelete(page, p))
    ensures OnDelete(page, p).counter + (if page.rows[p].completed then 0 else 1) == page.counter
  {
    RemoveWellFormed(page.rows, p);
    RemoveCount(page.rows, p);
    SaveAndCountConsistent(page, Remove(page.rows, p));
  }

  /** A `dragover` event: the rows are reordered on screen; nothing is
      saved and the counter is not refreshed. */
  function OnDragOver(page: Page, geo: seq<Box>, dragged: nat, clientY: int): (r: Page)
    requires |geo| == |page.rows| && dragged < |page.rows|
    ensures r.slot == page.slot && r.counter == page.counter && r.input == page.input
    ensures |r.rows| == |page.rows| && multiset(r.rows) == multiset(page.rows)
    ensures var k := DropIndex(geo, dragged, clientY);
      r.rows[k] == page.rows[dragged] && Remove(r.rows, k) == Remove(page.rows, dragged)
  {
    page.(rows := DragOver(page.rows, geo, dragged, clientY))
  }

  /** The `dragend` event: the current order is saved. */
  function OnDragEnd(page: Page): (r: Page)
    ensures r.rows == page.rows && r.counter == page.counter && r.input == page.input
    ensures SaveTasks(page.rows).Some? ==> r.slot == SaveTasks(page.rows)
    ensures SaveTasks(page.rows).None? ==> r.slot == page.slot
  {
    match SaveTasks(page.rows)
    case None => page
    case Some(s) => page.(slot := Some(s))
  }

  /** `dragend` on well-formed rows stores exactly their current order. */
  lemma DragEndSaves(page: Page)
    requires AllWellFormed(page.rows)
    ensures LoadSlot(OnDragEnd(page).slot) == Success(TasksOf(page.rows))
  {
    SnapshotWellFormed(page.rows);
    ParseStringify(TasksOf(page.rows));
  }

  /** One `dragover` keeps the rows well formed and the counter right (the
      first ensures, which is its first requires again, so it chains over
      the many `dragover` events of one drag), and `dragend` then makes the
      page consistent; what the slot held before does not matter. */
  lemma DragKeepsConsistent(page: Page, geo: seq<Box>, dragged: nat, clientY: int)
    requires AllWellFormed(page.rows) && page.counter == ActiveCount(page.rows)
    requires |geo| == |page.rows| && dragged < |page.rows|
    ensures var moved := OnDragOver(page, geo, dragged, clientY);
      AllWellFormed(moved.rows) && moved.counter == ActiveCount(moved.rows)
    ensures Consistent(OnDragEnd(OnDragOver(page, geo, dragged, clientY)))
  {
    var moved := OnDragOver(page, geo, dragged, clientY);
    DragOverKeeps(page.rows, geo, dragged, clientY);
    SaveAndCountConsistent(moved, moved.rows);
  }

  /** `window.onload`: `loadTasks`. A slot the model does not read as a task
      array is a failure that leaves the page unchanged. */
  function OnLoad(page: Page): (r: Page)
    ensures r.slot == page.slot && r.input == page.input
    ensures LoadSlot(page.slot).Failure? ==> r == page
    ensures LoadSlot(page.slot).Success? ==>
      && r.rows == page.rows + RowsOf(LoadSlot(page.slot).value)
      && r.counter == ActiveCount(r.rows)
  {
    match LoadSlot(page.slot)
    case Failure(_) => page
    case Success(ts) =>
      var rows := page.rows + RowsOf(ts);
      page.(rows := rows, counter := ActiveCount(rows))
  }

  /** A fresh page over a slot that `saveTasks` wrote from consistent rows
      shows those rows again, and is consistent. */
  lemma ReloadRestores(page: Page)
    requires Consistent(page)
    ensures var reloaded := OnLoad(Page([], "", page.slot, 0));
      reloaded.rows == page.rows && Consistent(reloaded)
  {
    ReloadConsistent(page);
    ReloadRows(page);
  }

  lemma ReloadRows(page: Page)
    requires Consistent(page)
    ensures OnLoad(Page([], "", page.slot, 0)).rows == page.rows
  {
    ConsistentReloads(page);
    RowsOfTasksOf(page.rows);
    assert OnLoad(Page([], "", page.slot, 0)).rows == [] + page.rows;
    assert [] + page.rows == page.rows;
  }

  lemma ReloadConsistent(page: Page)
    requires Consistent(page)
    ensures Consistent(OnLoad(Page([], "", page.slot, 0)))
  {
    ReloadRows(page);
  }

  /** A page with no rows and nothing stored is consistent. */
  lemma BlankPageConsistent(input: string)
    ensures Consistent(Page([], input, None, 0))
  {
  }

  /** With nothing stored, a fresh page starts empty, and is consistent. */
  lemma EmptySlotLoadsEmpty(input: string, counter: nat)
    ensures OnLoad(Page([], input, None, counter)).rows == []
    ensures Consistent(OnLoad(Page([], "", None, counter)))
  {
  }

  /** A slot whose text is a falsy JSON value loads as an empty list, and
      the counter is refreshed to zero. */
  lemma FalsySlotLoadsEmpty(s: string, input: string, counter: nat)
    requires IsFalsyJson(s)
    ensures OnLoad(Page([], input, Some(s), counter)) == Page([], input, Some(s), 0)
  {
  }

  /** A row without a text node (a stored record with empty text loads as
      one) makes `saveTasks` throw: a checkbox change on any row then
      updates that row but neither the slot nor the counter. */
  lemma BlankRowStopsSaving(page: Page, p: nat, q: nat)
    requires p < |page.rows| && q < |page.rows| && page.rows[q].text == ""
    ensures var r := OnCheckboxChange(page, p);
      r.slot == page.slot && r.counter == page.counter && r.rows == Toggle(page.rows, p)
  {
    assert Toggle(page.rows, p)[q].text == "";
  }

  /** A stored record with empty text loads as a row without a text node. */
  lemma EmptyRecordLoadsBlankRow(ts: seq<Task>, q: nat)
    requires q < |ts| && ts[q].text == ""
    ensures SaveTasks(RowsOf(ts)).None?
  {
    assert RowsOf(ts)[q].text == "";
  }

  /* ---------- scenarios ---------- */

  /** Add a task, tick it, look at it through the filters, delete it: the
      counter goes 1 then 0, "active" hides the row and "completed" shows
      it, and the slot ends up holding the empty array. */
  lemma AddTickDeleteScenario(text: string)
    requires IsTrimmed(text) && Utf16Length(text) >= 3
    ensures var added := OnAdd(Page([], text, None, 0));
      && added.rows == [Row(text, false, false)]
      && added.counter == 1
      && var ticked := OnCheckboxChange(added, 0);
      && ticked.counter == 0
      && FilterTasks(ticked.rows, "active") == [Hidden]
      && FilterTasks(ticked.rows, "completed") == [Flex]
      && var deleted := OnDelete(ticked, 0);
      && deleted.rows == []
      && deleted.slot == Some("[]")
  {
    var added := OnAdd(Page([], text, None, 0));
    AddToBlankPage(text);
    var ticked := OnCheckboxChange(added, 0);
    TickOnlyRow(added);
    DeleteOnlyRow(ticked);
  }

  lemma AddToBlankPage(text: string)
    requires IsTrimmed(text) && Utf16Length(text) >= 3
    ensures var added := OnAdd(Page([], text, None, 0));
      added.rows == [Row(text, false, false)] && added.counter == 1 && Consistent(added)
  {
    var blank := Page([], text, None, 0);
    TrimmedKept(text);
    BlankPageConsistent(text);
    AddKeepsConsistent(blank);
    var added := OnAdd(blank);
    assert |added.rows| == 1 && added.rows[0] == Row(text, false, false);
    assert added.rows == [Row(text, false, false)];
  }

  lemma TickOnlyRow(page: Page)
    requires Consistent(page) && |page.rows| == 1 && !page.rows[0].completed
    ensures var ticked := OnCheckboxChange(page, 0);
      && ticked.counter == 0 && Consistent(ticked)
      && FilterTasks(ticked.rows, "active") == [Hidden]
      && FilterTasks(ticked.rows, "completed") == [Flex]
  {
    CheckboxKeepsConsistent(page, 0);
    ToggleCount(page.rows, 0);
    var ticked := OnCheckboxChange(page, 0);
    assert |ticked.rows| == 1 && ticked.rows[0].completed;
    OnlyRowFilters(ticked.rows);
  }

  lemma OnlyRowFilters(rows: seq<Row>)
    requires |rows| == 1 && rows[0].completed
    ensures FilterTasks(rows, "active") == [Hidden]
    ensures FilterTasks(rows, "completed") == [Flex]
  {
    assert Visibility("active", rows[0]) == Hidden;
    assert Visibility("completed", rows[0]) == Flex;
  }

  lemma DeleteOnlyRow(page: Page)
    requires Consistent(page) && |page.rows| == 1
    ensures OnDelete(page, 0).rows == [] && OnDelete(page, 0).slot == Some("[]")
  {
    DeleteKeepsConsistent(page, 0);
    assert Snapshot([]) == Some([]);
    assert Stringify([]) == "[]";
  }

  /** Three rows, the third dragged above the midpoint of the first and
      dropped: it is now first, and the slot stores the new order. */
  lemma DragScenario(a: Row, b: Row, c: Row)
    requires WellFormed(a) && WellFormed(b) && WellFormed(c)
    ensures var geo := [Box(0, 40), Box(40, 40), Box(80, 40)];
      var dropped := OnDragEnd(OnDragOver(Page([a, b, c], "", None, 0), geo, 2, 10));
      dropped.rows == [c, a, b] && LoadSlot(dropped.slot) == Success(TasksOf([c, a, b]))
  {
    var geo := [Box(0, 40), Box(40, 40), Box(80, 40)];
    var moved := OnDragOver(Page([a, b, c], "", None, 0), geo, 2, 10);
    DragThirdToTop(a, b, c);
    ThreeWellFormed(c, a, b);
    DragEndSaves(moved);
  }

  lemma ThreeWellFormed(a: Row, b: Row, c: Row)
    requires WellFormed(a) && WellFormed(b) && WellFormed(c)
    ensures AllWellFormed([a, b, c])
  {
  }

  lemma DragThirdToTop(a: Row, b: Row, c: Row)
    ensures DragOver([a, b, c], [Box(0, 40), Box(40, 40), Box(80, 40)], 2, 10) == [c, a, b]
  {
    var geo := [Box(0, 40), Box(40, 40), Box(80, 40)];
    assert AnchorFrom(geo, 2, 10, 0) == Some(0);
    assert DropIndex(geo, 2, 10) == 0;
    MoveLastToFirst(a, b, c);
  }
}

=== FILE: wrappers.dfy ===
/** Option and Result for the model's partial operations; `Option` can be
    used with `:-`. */
module Wrappers {

  datatype Option<+T> = None | Some(value: T) {

    predicate IsFailure() {
      None?
    }

    function PropagateFailure<U>(): Option<U>
      requires None?
    {
      None
    }

    function Extract(): T
      requires Some?
    {
      value
    }
  }

  datatype Result<+R, +E> = Success(value: R) | Failure(error: E)
}
